=== FILE: README.md ===
# Credential and one-time-code lifecycle of the Bun/Hono account backend

This project models the authentication core of a small account and file
backend. It is a sequential state machine over an abstract credential store:

- **Store.** `CredentialStore.State` holds two maps, users by id and one-time
  codes by id. A user has an e-mail, a password hash, an `isValidated` flag
  and an optional soft-delete timestamp. A code has an owning user, a
  `voided` flag and an expiry time. A code is *usable* at `now` iff it is not
  voided and `expiresAt > now`. Each query of the Postgres service is a pure
  function from a store to a store or to a read result.
- **Current repository (`AuthRepository`).** Issuing a code voids every
  usable code of the user, then inserts one that lives 15 minutes.
  Validating a user or resetting a password consumes a usable code, voids
  it, then changes the owner.
- **Older repository (`LegacyRepository`).** The earlier revision of the same
  calls. Its `expired` column is the same `voided` flag here. It flags every
  unflagged code on issue, and it validates without consuming the code.
  `Revisions` proves where the two agree and where they differ.
- **State machine (`Lifecycle`).** The current repository's writes are
  events. Across any admissible run, validation never reverts, a voided code
  is never revived, and a run in time order that starts with at most one
  usable code per user ends with at most one usable code per user.
- **Routes.** `AuthRoutes` and `LegacyRoutes` map repository outcomes to
  HTTP status and body for sign-up, validate, forgot-password,
  reset-password and login. `FileAccess` holds the read and delete decisions
  of the file routes.

The clock is a parameter `now` (seconds), the same for the application and
the database. Ids the database generates are parameters that must be fresh.
The password hash is an input, and password verification is a function
parameter about which nothing is assumed.

Two behaviours of the source are worth knowing up front:

- Forgot-password answers 400 for an unknown e-mail
  (src/routes/auth/auth.route.ts:161-165), so it reveals which accounts
  exist.
- The older validate's UPDATE has no `deletedAt` filter
  (src/routes/authentication/repository/pg_authentication.repository.ts:127-131),
  so it marks a soft-deleted owner validated.

## Model

| member | source | states |
|---|---|---|
| CredentialStore.CreateUser | src/routes/auth/service/pg_auth.service.ts:5-22 | Inserting a user fails with `DuplicateEmail`, leaving the store unchanged, iff a non-deleted user already holds the e-mail. Otherwise the new id maps to an unvalidated, non-deleted user with the given hash, no other user or code changes, and the e-mail index stays valid |
| CredentialStore.UpdatePassword | src/routes/auth/service/pg_auth.service.ts:24-37 | Only the hash of the named user changes. An absent id changes nothing, and codes are untouched |
| CredentialStore.SetValidated | src/routes/auth/service/pg_auth.service.ts:39-45 | Only the named user's `isValidated` becomes true. Every other user and every code is unchanged |
| CredentialStore.GetUserByEmail | src/routes/auth/service/pg_auth.service.ts:47-54 | Returns a user iff a non-deleted user holds the e-mail, and then that unique user. It never returns a soft-deleted user |
| CredentialStore.GetUserById | src/routes/auth/service/pg_auth.service.ts:56-63 | Returns the stored user iff the id exists and is not soft-deleted |
| CredentialStore.CreateCodeForUser | src/routes/auth/service/pg_auth.service.ts:65-77 | Adds exactly one code under the fresh id: owned by the given user, not voided, expiring at now + 15 minutes, hence usable now. Existing codes and all users are unchanged |
| CredentialStore.UpdateCode | src/routes/auth/service/pg_auth.service.ts:79-92 | Changes only the `voided` field of the named code. Every other code and every user is unchanged |
| CredentialStore.GetCode | src/routes/auth/service/pg_auth.service.ts:94-101 | Returns the stored code iff it exists, is not voided and `expiresAt > now`. Otherwise it returns nothing |
| CredentialStore.GetCodesForUser | src/routes/auth/service/pg_auth.service.ts:103-110 | The result is exactly the set of codes with that `userId` that are not voided and have `expiresAt > now` |
| AuthRepository.VoidActiveCodes | src/routes/auth/auth.repository.ts:30-38 | Voiding the fetched, re-filtered usable codes one update at a time gives the same store as voiding the whole set at once. Every usable code of the user ends voided, other users' codes and all users are unchanged (loop invariants) |
| AuthRepository.CreateCodeForUser | src/routes/auth/auth.repository.ts:26-43 | Fails with `UserNotFound` and an unchanged store iff no non-deleted user holds the e-mail. On success it returns the fresh id: that user's previously usable codes are voided, the fresh code is added, nothing else changes, and the fresh code is the user's only usable code |
| AuthRepository.ResetPassword | src/routes/auth/auth.repository.ts:45-68 | `InvalidCode` with no change iff the code is absent, voided or expired. Otherwise exactly that code is voided before the owner lookup. A soft-deleted owner gives `UserNotFound` with users unchanged. Else only the owner's hash becomes the new hash |
| AuthRepository.PasswordForUser | src/routes/auth/auth.repository.ts:70-75 | The stored hash iff the id is a non-deleted user, and `UserNotFound` otherwise |
| AuthRepository.ValidateUser | src/routes/auth/auth.repository.ts:88-102 | `InvalidCode` with no change iff the code is not usable. Otherwise exactly that code is voided. Success iff the owner is not deleted, and then only the owner's `isValidated` becomes true. `UserNotFound` leaves users unchanged |
| AuthRepository.GetUser | src/routes/auth/auth.repository.ts:104-108 | The non-deleted user holding the e-mail, and `UserNotFound` iff there is none |
| LegacyRepository.UnexpiredCodes | src/routes/authentication/repository/pg_authentication.repository.ts:36-40 | The rows the bulk update matches: exactly the user's codes whose flag is clear, whatever their expiry |
| LegacyRepository.CreateCodeForUser | src/routes/authentication/repository/pg_authentication.repository.ts:29-51 | `UserNotFound` with no change iff no non-deleted user holds the e-mail. Otherwise every code of the user is flagged, a code expiring at now + 15 minutes is added, nothing else changes, and it is the user's only usable code |
| LegacyRepository.ResetPassword | src/routes/authentication/repository/pg_authentication.repository.ts:53-88 | `InvalidCode` with no change iff the code is flagged, past `expiresAt` or absent. Otherwise the code is flagged before the owner lookup. A soft-deleted owner gives `UserNotFound` with the code already flagged. Else only the owner's hash changes |
| LegacyRepository.PasswordForUser | src/routes/authentication/repository/pg_authentication.repository.ts:90-99 | The hash of the non-deleted user holding the e-mail, and `UserNotFound` iff there is none |
| LegacyRepository.ValidateUser | src/routes/authentication/repository/pg_authentication.repository.ts:117-132 | `InvalidCode` with no change iff the code is not usable. Otherwise the codes are left as they were, so the code stays usable. The owner's `isValidated` becomes true even when the owner is soft-deleted, and nothing else changes |
| LegacyRepository.GetUser | src/routes/authentication/repository/pg_authentication.repository.ts:134-144 | The non-deleted user holding the e-mail, and `UserNotFound` iff there is none |
| Revisions.IssueAgreesOnUsability | src/routes/authentication/repository/pg_authentication.repository.ts:35-47 | Issuing a code in either revision gives the same answer and the same users. The set of usable codes is the same at issue time and at any later time |
| Revisions.IssueFlagsLapsedCodesOnlyInLegacy | src/routes/authentication/repository/pg_authentication.repository.ts:36-40 | On a concrete store, a code past its expiry keeps a clear flag in the current revision but is flagged by the older one |
| Revisions.ResetPasswordAgrees | src/routes/authentication/repository/pg_authentication.repository.ts:53-88 | Both revisions' reset-password give the identical outcome and store for every input |
| Revisions.ValidateConsumesOnlyInCurrent | src/routes/authentication/repository/pg_authentication.repository.ts:117-132 | For a usable code with a live owner, both revisions succeed and validate the same users. Only the current one leaves the code unusable |
| Revisions.RepeatedValidate | src/routes/auth/auth.repository.ts:88-102 | A second validate with the same code fails with `InvalidCode` and no change in the current revision. The older revision succeeds again and leaves the store exactly as the first call did (idempotent) |
| Revisions.ValidateDeletedOwner | src/routes/authentication/repository/pg_authentication.repository.ts:127-131 | For a soft-deleted owner, the current revision voids the code and reports `UserNotFound`. The older one reports success and marks the deleted user validated |
| Revisions.PasswordLookupsAgree | src/routes/authentication/repository/pg_authentication.repository.ts:90-99 | Both revisions find the same user for an e-mail. The current revision's lookup of the hash by id gives the older revision's lookup by e-mail |
| Lifecycle.Apply | src/routes/auth/auth.repository.ts:25-109 | Every writing call of the current repository keeps the store valid: e-mails are unique among live users and every code belongs to a stored user |
| Lifecycle.Run | src/routes/auth/auth.repository.ts:25-109 | Any admissible run of writing calls keeps the store valid (by the recursive call's contract) |
| Lifecycle.ApplyKeepsValidated | src/routes/auth/auth.repository.ts:101 | No single call removes a user or sets `isValidated` back to false |
| Lifecycle.ApplyKeepsVoided | src/routes/auth/auth.repository.ts:36 | No single call removes a code, changes its owner or expiry, or clears its `voided` flag |
| Lifecycle.CreateCodeKeepsCodes | src/routes/auth/auth.repository.ts:30-40 | Issuing a code keeps every existing code with its owner and expiry, and a voided code stays voided |
| Lifecycle.ValidateKeepsCodes | src/routes/auth/auth.repository.ts:88-102 | Validating keeps every code with its owner and expiry, and a voided code stays voided |
| Lifecycle.ResetPasswordKeepsCodes | src/routes/auth/auth.repository.ts:45-68 | Resetting a password keeps every code with its owner and expiry, and a voided code stays voided |
| Lifecycle.ApplyKeepsSingleActive | src/routes/auth/auth.repository.ts:30-42 | If each user had at most one usable code at an earlier time, the same holds after any call, at the call's time |
| Lifecycle.RunKeepsValidated | src/routes/auth/auth.repository.ts:88-102 | Over any admissible run, a validated user stays present and validated |
| Lifecycle.RunKeepsVoided | src/routes/auth/auth.repository.ts:53-57 | Over any admissible run, a voided code stays present and voided, so a used or superseded code never works again |
| Lifecycle.RunKeepsSingleActive | src/routes/auth/auth.repository.ts:26-43 | Over any run in time order that starts with at most one usable code per user, the final store has at most one usable code per user at the last event's time |
| AuthRoutes.Register | src/routes/auth/auth.route.ts:77-109 | Answers 201 with the new user id iff no live user holds the e-mail. Then the user is stored unvalidated with the given hash and has one new unvoided code good for 15 minutes, with every other code unchanged. Otherwise it answers 400 "Cannot create user" with the store unchanged |
| AuthRoutes.Validate | src/routes/auth/auth.route.ts:117-138 | 204 with no body iff the code is usable and its owner live. 401 "Invalid code" with no change iff the code is not usable. 500 otherwise |
| AuthRoutes.ForgotPassword | src/routes/auth/auth.route.ts:144-168 | 202 iff a live user holds the e-mail, and then the store is the issued-code store. Otherwise 400 "Failed to create reset code" with no change |
| AuthRoutes.ResetPassword | src/routes/auth/auth.route.ts:175-198 | 200 iff the code is usable and its owner live. Every other case answers 400 "Failed to reset password". The store is the repository's |
| AuthRoutes.Login | src/routes/auth/auth.route.ts:201-242 | 200 with a token for the user's id and e-mail iff a live user holds the e-mail and `verify(password, hash)` holds. Every other case answers the same 401 "Invalid email or password" |
| AuthRoutes.LoginHidesUnknownUsers | src/routes/auth/auth.route.ts:236-241 | An unknown e-mail and a wrong password for a known one get identical responses |
| AuthRoutes.ForgotPasswordRevealsAccounts | src/routes/auth/auth.route.ts:158-166 | An unknown e-mail and a known one get different statuses, so the route does not hide which accounts exist |
| AuthRoutes.RegisterTwice | src/routes/auth/auth.route.ts:80-108 | Registering an e-mail a second time answers 400 and leaves the store as the first call left it |
| LegacyRoutes.SignUp | src/routes/authentication/authentication.route.ts:81-97 | Creating the user and issuing its code succeeds iff no live user holds the e-mail. On success the only new code is the new user's, unvoided and good for 15 minutes, and every other code is unchanged. On failure nothing changes |
| LegacyRoutes.IssueKeepsOtherCodes | src/routes/authentication/repository/pg_authentication.repository.ts:35-46 | Issuing a code to a user who owns no code flags nothing, so the codes change only by the new one |
| LegacyRoutes.RegisterAsWritten | src/routes/authentication/authentication.route.ts:75-109 | Success answers status 200, not 201. Any failure answers 409 "Cannot create user" |
| LegacyRoutes.RegisterSuccessIsNot201 | src/routes/authentication/authentication.route.ts:98-100 | Every successful sign-up answers status 200 with the number 201 as body |
| LegacyRoutes.Register | src/routes/authentication/authentication.route.ts:75-109 | Corrected: 201 iff no live user holds the e-mail, with the user and one unvoided 15-minute code stored and every other code unchanged. Any failure, including a duplicate e-mail, answers 409 with no change |
| LegacyRoutes.ValidateFailure | src/routes/authentication/authentication.route.ts:131-136 | `InvalidCode` answers 401 "Invalid code" and every other error 500 |
| LegacyRoutes.ValidateAsWritten | src/routes/authentication/authentication.route.ts:117-138 | Success answers status 200, not 204, iff the code is usable. Otherwise 401 with no change |
| LegacyRoutes.ValidateSuccessIsNot204 | src/routes/authentication/authentication.route.ts:128-130 | Every successful validation answers status 200 with the number 204 as body |
| LegacyRoutes.Validate | src/routes/authentication/authentication.route.ts:117-138 | Corrected: 204 with no body iff the code is usable, leaving the codes untouched. Otherwise 401 with no change |
| LegacyRoutes.ForgotPassword | src/routes/authentication/authentication.route.ts:144-168 | 202 iff a live user holds the e-mail, with the older revision's issued-code store. Otherwise 400 with no change |
| LegacyRoutes.ResetPassword | src/routes/authentication/authentication.route.ts:175-198 | 200 iff the code is usable and its owner live. Otherwise 400 "Failed to reset password" |
| LegacyRoutes.Login | src/routes/authentication/authentication.route.ts:201-240 | 200 with a token iff a live user holds the e-mail and its stored hash verifies. The same 401 for an unknown user and for a mismatch |
| FileAccess.GetFile | src/routes/files/files.routes.ts:24-55 | 404 without metadata. 403 iff `public` is exactly `false` (a NULL `public` passes the strict comparison) and the requester is not the owner. 404 "File not found in storage" when an allowed file has no stored object. Otherwise 200 streaming the object with the metadata's content type |
| FileAccess.UnsetVisibilityIsReadableByAll | src/routes/files/files.routes.ts:33-45 | A stored file whose `public` is NULL, as the upload handler leaves it, is streamed to every requester, owner or not |
| FileAccess.DeleteFile | src/routes/files/files.routes.ts:83-95 | 204 iff the file exists and the requester owns it, and then its metadata and object are removed. Otherwise 404 "File not found" with nothing removed, never 403 |
| FileAccess.PrivateFilesStayPrivate | src/routes/files/files.routes.ts:33-35 | Only the owner ever receives the bytes of a file whose `public` is `false` |
| FileAccess.DeleteHidesOthersFiles | src/routes/files/files.routes.ts:88-91 | For a non-owner, deleting someone else's file and deleting a missing file give the same response |

## Findings

| source | as written | input that shows it | evidently intended | confidence | as-written member | corrected member |
|---|---|---|---|---|---|---|
| src/routes/authentication/authentication.route.ts:99 | `c.json(201)` sends `201` as the JSON body with the default status 200 | any sign-up for an e-mail no live user holds | status 201 | high that the framework treats a lone argument as the body; not executed | LegacyRoutes.RegisterAsWritten | LegacyRoutes.Register |
| src/routes/authentication/authentication.route.ts:129 | `c.json(204)` sends `204` as the JSON body with the default status 200 | any validation with a usable code | status 204 with no body | high that the framework treats a lone argument as the body; not executed | LegacyRoutes.ValidateAsWritten | LegacyRoutes.Validate |

`LegacyRoutes.RegisterSuccessIsNot201` and `LegacyRoutes.ValidateSuccessIsNot204`
prove that every success of the as-written handlers answers 200.

## Left out

- Concurrency: each repository call is one atomic step. The source runs each call as separate queries without a transaction, so two concurrent issues can leave two usable codes. That race is not modelled.
- Storage failures: every query is modelled by its evident meaning and assumed to succeed. The routes' catch-all branches are reached only through the modelled domain errors.
- These statements cannot run on PostgreSQL as written; the model gives each its evident meaning instead:
  - The current createUser inserts into `auth_providers` with `"password"` as a quoted identifier and an unterminated quoted identifier `"${passwordHash}` (src/routes/auth/service/pg_auth.service.ts:19).
  - Every UPDATE except the older validate qualifies its SET target with the table alias, which PostgreSQL rejects: `SET u.password` (src/routes/auth/service/pg_auth.service.ts:33), `SET u."isValidated"` (pg_auth.service.ts:42), `SET uc.voided` (pg_auth.service.ts:88), `SET uc.expired` (src/routes/authentication/repository/pg_authentication.repository.ts:38 and 72), `SET u.password` (pg_authentication.repository.ts:85).
  - getCode and getCodesForUser select the unquoted `uc.expiresAt` beside the quoted `uc."expiresAt"` (pg_auth.service.ts:96-98 and 105-107).
  - The current createCodeForUser returns the unquoted `expiresAt` from an INSERT that names the quoted `"expiresAt"` (pg_auth.service.ts:67-69).
  - The current service has no `getPasswordHashById`, which passwordForUser calls (src/routes/auth/auth.repository.ts:71).
  - So, as written, none of the five current handlers succeeds. Sign-up never answers 201 (src/routes/auth/auth.route.ts:77-109). Validate answers 500 for every code, because getCode rejects with an error that is not `InvalidCodeError` (auth.route.ts:117-138). Forgot-password never answers 202 (auth.route.ts:144-168). Reset-password always answers 400 (auth.route.ts:175-198). Login never answers 200 (auth.route.ts:201-242). The model does not describe these failing statements.
- Password hashing (`Bun.password.hash`) is not modelled: the handlers receive the hash as an input. Verification is the uninterpreted parameter `verify`.
- JWT signing, `exp`, `expiresIn` and the environment reads behind them are left out, as is `toNumber`, which relies on floating-point parsing.
- AuthRoutes.Login: the token is only its claims `{id, email}`. Signing and expiry are not modelled.
- LegacyRoutes.Login: the token is only its claims `{id, email}`. Signing and expiry are not modelled.
- Mail delivery is not modelled: the Brevo service catches every failure, so sending mail never changes a response.
- Framework plumbing is not modelled: Hono routing, zod request schemas and the `jwt` middleware. The requester id of the file routes is an input.
- The file upload handler, the S3 object service and the file metadata services are left out: they are SQL and AWS client wrappers. Their data is the two maps of `FileAccess.Files`.
- The users routes, repositories and services, database initialisation and the server entry point are left out: they are single-query reads and startup code.
- Schema drift between revisions is not modelled: the `voided` and `expired` columns are one flag. The current createUser is meant to put the hash in `auth_providers` while the reads and updates use `users.password`; the model keeps one hash per user.
- The current service has no `getPasswordHashById`. `AuthRepository.PasswordForUser` returns the stored hash of the live user with that id, or `UserNotFound`.
- The unique index on e-mail lives in a schema file that is not part of this model. The model takes e-mail to be unique among non-deleted users and every code to belong to a stored user (`CredentialStore.Valid`).
- Generated ids are parameters required to be fresh; a primary-key collision is not modelled.
- The older reset-password also sets `updatedAt`; timestamps other than `deletedAt` and `expiresAt` are not modelled. Soft deletion itself happens outside this core.
- `InvalidTokenError` is declared in both repositories but never thrown, so it has no counterpart here.
- FileAccess.GetFile: `objects` stands for a storage read that resolves. With the only backend, S3, a missing key rejects (src/routes/files/service/s3_file_object.service.ts:67-69), and nothing catches it, so the framework answers 500 rather than the modelled 404 "File not found in storage". That 404 is reached only when S3 returns an object without a body (src/routes/files/files.repository.ts:71-77).
- FileAccess.DeleteFile: the handler returns the value of `c.status(204)` rather than a response object. The model takes 204 as the answer and does not model how the framework treats a handler that returns no response.
- `Lifecycle` covers the current revision only. The older revision's single-call behaviour is compared in `Revisions`.

=== FILE: auth_repository.dfy ===
/**
 * The current authentication repository: issuing one-time codes, consuming
 * them to validate a user or reset a password, and the user reads the login
 * flow needs. Each call is one atomic step from a store to a store.
 */
module AuthRepository {
  import opened Results
  import opened CredentialStore

  /**
   * How issuing code `code` for `userId` at `now` changes the store: every code
   * of that user still usable is voided, the new code is added, and nothing
   * else changes.
   */
  ghost predicate Superseded(s: State, s': State, userId: UserId, now: Time, code: CodeId)
  {
    && s'.users == s.users
    && s'.codes.Keys == s.codes.Keys + {code}
    && s'.codes[code] == Code(userId, false, now + CodeLifetime)
    && (forall c :: c in s.codes && s.codes[c].userId == userId && s.codes[c].UsableAt(now) ==>
          s'.codes[c] == s.codes[c].(voided := true))
    && (forall c :: c in s.codes && !(s.codes[c].userId == userId && s.codes[c].UsableAt(now)) ==>
          s'.codes[c] == s.codes[c])
  }

  /**
   * Fetches the usable codes of `userId`, filters them once more and voids
   * them one `updateCode` at a time.
   */
  method VoidActiveCodes(s: State, userId: UserId, now: Time) returns (s': State)
    ensures s' == VoidAll(s, GetCodesForUser(s, userId, now))
    ensures s'.users == s.users
    ensures forall c :: c in s.codes && s.codes[c].userId == userId && s.codes[c].UsableAt(now) ==>
              s'.codes[c] == s.codes[c].(voided := true)
    ensures forall c :: c in s.codes && s.codes[c].userId != userId ==> s'.codes[c] == s.codes[c]
  {
    var codes := GetCodesForUser(s, userId, now);
    var activeCodes := set c | c in codes && !s.codes[c].voided && s.codes[c].expiresAt > now;
    var pending := activeCodes;
    s' := s;
    while pending != {}
      invariant pending <= activeCodes
      invariant s'.users == s.users
      invariant s'.codes.Keys == s.codes.Keys
      invariant forall c :: c in s.codes && c in activeCodes - pending ==> s'.codes[c] == s.codes[c].(voided := true)
      invariant forall c :: c in s.codes && c !in activeCodes - pending ==> s'.codes[c] == s.codes[c]
      decreases pending
    {
      var c :| c in pending;
      s' := UpdateCode(s', c, true);
      pending := pending - {c};
    }
    assert activeCodes == codes;
  }

  /** Issues a new code for the non-deleted user holding `email`; returns its id. */
  function CreateCodeForUser(s: State, email: Email, now: Time, newId: CodeId): (r: Step<CodeId>)
    requires Valid(s)
    requires newId !in s.codes
    ensures r.out.Err? <==> forall id :: !ActiveWithEmail(s, id, email)
    ensures r.out.Err? ==> r.out.error == UserNotFound && r.next == s
    ensures r.out.Ok? ==> r.out.value == newId
    ensures forall id :: ActiveWithEmail(s, id, email) ==> Superseded(s, r.next, id, now, newId)
    ensures r.out.Ok? ==> IsUsable(r.next, newId, now)
    ensures r.out.Ok? ==> forall c :: IsUsable(r.next, c, now) && r.next.codes[c].userId == r.next.codes[newId].userId ==> c == newId
    ensures Valid(r.next)
  {
    match GetUserByEmail(s, email)
    case None => Step(Err(UserNotFound), s)
    case Some(userId) =>
      var superseded := VoidAll(s, GetCodesForUser(s, userId, now));
      Step(Ok(newId), CredentialStore.CreateCodeForUser(superseded, userId, now, newId))
  }

  /** Consumes a usable code, then stores `newPasswordHash` for its non-deleted owner. */
  function ResetPassword(s: State, code: CodeId, newPasswordHash: PasswordHash, now: Time): (r: Step<()>)
    ensures r.out == Err(InvalidCode) <==> !IsUsable(s, code, now)
    ensures !IsUsable(s, code, now) ==> r.next == s
    ensures IsUsable(s, code, now) ==> r.next.codes == s.codes[code := s.codes[code].(voided := true)]
    ensures IsUsable(s, code, now) ==>
              var owner := s.codes[code].userId;
              (r.out.Ok? <==> owner in s.users && s.users[owner].Active())
              && (r.out.Ok? ==> r.next.users == s.users[owner := s.users[owner].(passwordHash := newPasswordHash)])
    ensures IsUsable(s, code, now) && !(s.codes[code].userId in s.users && s.users[s.codes[code].userId].Active()) ==>
              r.out == Err(UserNotFound) && r.next.users == s.users
    ensures r.out == Err(UserNotFound) ==> r.next.users == s.users
    ensures Valid(s) ==> Valid(r.next)
  {
    match GetCode(s, code, now)
    case None => Step(Err(InvalidCode), s)
    case Some(validationCode) =>
      var consumed := UpdateCode(s, code, true);
      match GetUserById(consumed, validationCode.userId)
      case None => Step(Err(UserNotFound), consumed)
      case Some(_) => Step(Ok(()), UpdatePassword(consumed, validationCode.userId, newPasswordHash))
  }

  /** The stored hash of the non-deleted user `userId`. */
  function PasswordForUser(s: State, userId: UserId): (r: Result<PasswordHash, AuthError>)
    ensures r.Ok? <==> userId in s.users && s.users[userId].Active()
    ensures r.Ok? ==> r.value == s.users[userId].passwordHash
    ensures r.Err? ==> r.error == UserNotFound
  {
    match GetUserById(s, userId)
    case None => Err(UserNotFound)
    case Some(user) => Ok(user.passwordHash)
  }

  /** Consumes a usable code, then marks its non-deleted owner as validated. */
  function ValidateUser(s: State, code: CodeId, now: Time): (r: Step<()>)
    ensures r.out == Err(InvalidCode) <==> !IsUsable(s, code, now)
    ensures !IsUsable(s, code, now) ==> r.next == s
    ensures IsUsable(s, code, now) ==> r.next.codes == s.codes[code := s.codes[code].(voided := true)]
    ensures IsUsable(s, code, now) ==>
              var owner := s.codes[code].userId;
              (r.out.Ok? <==> owner in s.users && s.users[owner].Active())
              && (r.out.Ok? ==> r.next.users == s.users[owner := s.users[owner].(isValidated := true)])
    ensures IsUsable(s, code, now) && !(s.codes[code].userId in s.users && s.users[s.codes[code].userId].Active()) ==>
              r.out == Err(UserNotFound) && r.next.users == s.users
    ensures r.out == Err(UserNotFound) ==> r.next.users == s.users
    ensures Valid(s) ==> Valid(r.next)
  {
    match GetCode(s, code, now)
    case None => Step(Err(InvalidCode), s)
    case Some(validationCode) =>
      var consumed := UpdateCode(s, code, true);
      match GetUserById(consumed, validationCode.userId)
      case None => Step(Err(UserNotFound), consumed)
      case Some(_) => Step(Ok(()), SetValidated(consumed, validationCode.userId))
  }

  /** The non-deleted user holding `email`. */
  function GetUser(s: State, email: Email): (r: Result<UserId, AuthError>)
    requires Valid(s)
    ensures r.Ok? ==> ActiveWithEmail(s, r.value, email)
    ensures r.Err? <==> forall id :: !ActiveWithEmail(s, id, email)
    ensures r.Err? ==> r.error == UserNotFound
  {
    match GetUserByEmail(s, email)
    case None => Err(UserNotFound)
    case Some(id) => Ok(id)
  }
}

=== FILE: auth_routes.dfy ===
/**
 * The five handlers of the current authentication routes, from request
 * fields to a response and the store they leave. Password hashing is done
 * before the handler body and arrives here as the resulting hash; password
 * verification is the parameter `verify`. Mail delivery never rejects, so it
 * has no effect on the outcome and is not modelled.
 */
module AuthRoutes {
  import opened Results
  import opened CredentialStore
  import opened Http
  import AuthRepository

  /** Sign up: create the user, issue a validation code for the e-mail, answer 201 with the id. */
  function Register(s: State, email: Email, passwordHash: PasswordHash, now: Time, newUser: UserId, newCode: CodeId): (r: Reply)
    requires Valid(s)
    requires newUser !in s.users
    requires newCode !in s.codes
    ensures r.response.status == 201 <==> forall id :: !ActiveWithEmail(s, id, email)
    ensures r.response.status == 201 ==>
              && r.response.body == UserIdBody(newUser)
              && r.next.users == s.users[newUser := User(email, passwordHash, false, None)]
              && IsUsable(r.next, newCode, now) && r.next.codes[newCode].userId == newUser
              && r.next.codes == s.codes[newCode := Code(newUser, false, now + CodeLifetime)]
    ensures r.response.status != 201 ==> r.response == Response(400, Error(CannotCreateUser)) && r.next == s
    ensures Valid(r.next)
  {
    var created := CredentialStore.CreateUser(s, email, passwordHash, newUser);
    if created.out.Err? then
      Reply(Response(400, Error(CannotCreateUser)), created.next)
    else
      var issued := AuthRepository.CreateCodeForUser(created.next, email, now, newCode);
      if issued.out.Err? then
        Reply(Response(400, Error(CannotCreateUser)), issued.next)
      else
        Reply(Response(201, UserIdBody(created.out.value)), issued.next)
  }

  /** Validate: 204 when the code is consumed and the user marked, 401 for a bad code, 500 otherwise. */
  function Validate(s: State, code: CodeId, now: Time): (r: Reply)
    ensures r.next == AuthRepository.ValidateUser(s, code, now).next
    ensures r.response.status == 401 <==> !IsUsable(s, code, now)
    ensures r.response.status == 401 ==> r.response.body == Error(InvalidCodeMessage) && r.next == s
    ensures r.response.status == 204 <==>
              IsUsable(s, code, now) && s.codes[code].userId in s.users && s.users[s.codes[code].userId].Active()
    ensures r.response.status == 204 ==> r.response.body == NoBody
    ensures r.response.status !in {204, 401} ==> r.response == Response(500, Error(FailedToValidate))
  {
    var validated := AuthRepository.ValidateUser(s, code, now);
    match validated.out
    case Ok(_) => Reply(Response(204, NoBody), validated.next)
    case Err(InvalidCode) => Reply(Response(401, Error(InvalidCodeMessage)), validated.next)
    case Err(_) => Reply(Response(500, Error(FailedToValidate)), validated.next)
  }

  /**
   * Forgot password: issue a reset code and answer 202. An unknown e-mail
   * answers 400, so the response tells whether an account exists.
   */
  function ForgotPassword(s: State, email: Email, now: Time, newCode: CodeId): (r: Reply)
    requires Valid(s)
    requires newCode !in s.codes
    ensures r.response.status == 202 <==> exists id :: ActiveWithEmail(s, id, email)
    ensures r.response.status == 202 ==>
              r.response.body == Message(ResetCodeSent) && r.next == AuthRepository.CreateCodeForUser(s, email, now, newCode).next
    ensures r.response.status != 202 ==> r.response == Response(400, Error(FailedToCreateResetCode)) && r.next == s
  {
    var issued := AuthRepository.CreateCodeForUser(s, email, now, newCode);
    if issued.out.Ok? then
      Reply(Response(202, Message(ResetCodeSent)), issued.next)
    else
      Reply(Response(400, Error(FailedToCreateResetCode)), issued.next)
  }

  /** Reset password: 200 when the code is consumed and the hash stored, 400 for any failure. */
  function ResetPassword(s: State, code: CodeId, passwordHash: PasswordHash, now: Time): (r: Reply)
    ensures r.next == AuthRepository.ResetPassword(s, code, passwordHash, now).next
    ensures r.response.status == 200 <==>
              IsUsable(s, code, now) && s.codes[code].userId in s.users && s.users[s.codes[code].userId].Active()
    ensures r.response.status == 200 ==> r.response.body == Message(PasswordResetDone)
    ensures r.response.status != 200 ==> r.response == Response(400, Error(FailedToResetPassword))
  {
    var reset := AuthRepository.ResetPassword(s, code, passwordHash, now);
    if reset.out.Ok? then
      Reply(Response(200, Message(PasswordResetDone)), reset.next)
    else
      Reply(Response(400, Error(FailedToResetPassword)), reset.next)
  }

  /** The credentials are right: a non-deleted user holds `email` and its hash verifies `password`. */
  ghost predicate CanLogIn(s: State, email: Email, password: string, verify: (string, PasswordHash) -> bool) {
    exists id :: ActiveWithEmail(s, id, email) && verify(password, s.users[id].passwordHash)
  }

  /**
   * Log in: a token for the user when the password verifies, and otherwise
   * one uniform 401, whether the e-mail is unknown or the password wrong.
   */
  function Login(s: State, email: Email, password: string, verify: (string, PasswordHash) -> bool): (r: Response)
    requires Valid(s)
    ensures r.status == 200 <==> CanLogIn(s, email, password, verify)
    ensures r.status == 200 ==> forall id :: ActiveWithEmail(s, id, email) ==> r.body == TokenBody(Token(id, email))
    ensures r.status != 200 ==> r == Response(401, Error(InvalidCredentials))
  {
    match AuthRepository.GetUser(s, email)
    case Err(_) => Response(401, Error(InvalidCredentials))
    case Ok(id) =>
      match AuthRepository.PasswordForUser(s, id)
      case Err(_) => Response(401, Error(InvalidCredentials))
      case Ok(hash) =>
        if verify(password, hash) then Response(200, TokenBody(Token(id, s.users[id].email)))
        else Response(401, Error(InvalidCredentials))
  }

  /** Login gives an unknown e-mail and a wrong password the same answer. */
  lemma LoginHidesUnknownUsers(s: State, unknown: Email, known: Email, password: string, verify: (string, PasswordHash) -> bool)
    requires Valid(s)
    requires forall id :: !ActiveWithEmail(s, id, unknown)
    requires exists id :: ActiveWithEmail(s, id, known)
    requires !CanLogIn(s, known, password, verify)
    ensures Login(s, unknown, password, verify) == Login(s, known, password, verify)
  {
  }

  /** Forgot-password does not hide which e-mails have an account. */
  lemma ForgotPasswordRevealsAccounts(s: State, unknown: Email, known: Email, now: Time, newCode: CodeId)
    requires Valid(s)
    requires newCode !in s.codes
    requires forall id :: !ActiveWithEmail(s, id, unknown)
    requires exists id :: ActiveWithEmail(s, id, known)
    ensures ForgotPassword(s, unknown, now, newCode).response.status != ForgotPassword(s, known, now, newCode).response.status
  {
  }

  /** Registering the same e-mail twice: the second attempt answers 400 and changes nothing. */
  lemma RegisterTwice(s: State, email: Email, hash1: PasswordHash, hash2: PasswordHash, now: Time,
                      user1: UserId, code1: CodeId, user2: UserId, code2: CodeId, later: Time)
    requires Valid(s)
    requires user1 !in s.users && code1 !in s.codes
    requires user2 != user1 && user2 !in s.users && code2 != code1 && code2 !in s.codes
    ensures
      var first := Register(s, email, hash1, now, user1, code1);
      var second := Register(first.next, email, hash2, later, user2, code2);
      second.response.status == 400 && second.next == first.next
  {

  }
}

=== FILE: credential_store.dfy ===
/**
 * The credential store: users and one-time codes, and the primitive queries
 * the authentication repository runs against them. Every primitive is one
 * atomic step on an immutable `State`; the clock is the parameter `now`.
 */
module CredentialStore {
  import opened Results

  type UserId = string
  type CodeId = string
  type Email = string
  type PasswordHash = string

  /** Seconds on the database clock. */
  type Time = int

  /** The `interval '15 minutes'` a freshly inserted code lives for, in seconds. */
  const CodeLifetime: int := 15 * 60

  datatype User = User(email: Email, passwordHash: PasswordHash, isValidated: bool, deletedAt: Option<Time>)
  {
    /** Every user query filters on `deletedAt IS NULL`. */
    predicate Active() {
      deletedAt.None?
    }
  }

  datatype Code = Code(userId: UserId, voided: bool, expiresAt: Time)
  {
    /** A code can be presented iff it is not voided and has not yet expired. */
    predicate UsableAt(now: Time) {
      !voided && expiresAt > now
    }
  }

  datatype State = State(users: map<UserId, User>, codes: map<CodeId, Code>)

  /** The errors the repositories throw. */
  datatype AuthError = UserNotFound | InvalidCode | DuplicateEmail

  /** The outcome of one repository call together with the store it leaves behind. */
  datatype Step<+T> = Step(out: Result<T, AuthError>, next: State)

  predicate ActiveWithEmail(s: State, id: UserId, email: Email) {
    id in s.users && s.users[id].Active() && s.users[id].email == email
  }

  predicate IsUsable(s: State, code: CodeId, now: Time) {
    code in s.codes && s.codes[code].UsableAt(now)
  }

  /**
   * The constraints the schema keeps: e-mail is unique among non-deleted
   * users, and every code belongs to a stored user.
   */
  ghost predicate Valid(s: State) {
    && (forall a, b ::
          a in s.users && b in s.users && s.users[a].Active() && s.users[b].Active() && s.users[a].email == s.users[b].email
          ==> a == b)
    && (forall c :: c in s.codes ==> s.codes[c].userId in s.users)
  }

  /** At most one usable code per user at time `now`. */
  ghost predicate SingleActive(s: State, now: Time) {
    forall a, b :: IsUsable(s, a, now) && IsUsable(s, b, now) && s.codes[a].userId == s.codes[b].userId ==> a == b
  }

  /** `INSERT INTO users`: fails when a non-deleted user already holds the e-mail. */
  function CreateUser(s: State, email: Email, passwordHash: PasswordHash, newId: UserId): (r: Step<UserId>)
    requires Valid(s)
    requires newId !in s.users
    ensures r.out.Err? <==> exists id :: ActiveWithEmail(s, id, email)
    ensures r.out.Err? ==> r.out.error == DuplicateEmail && r.next == s
    ensures r.out.Ok? ==> r.out.value == newId && r.next.codes == s.codes
    ensures r.out.Ok? ==> r.next.users.Keys == s.users.Keys + {newId}
    ensures r.out.Ok? ==> r.next.users[newId] == User(email, passwordHash, false, None)
    ensures r.out.Ok? ==> forall id :: id in s.users ==> r.next.users[id] == s.users[id]
    ensures Valid(r.next)
  {
    if exists id | id in s.users :: ActiveWithEmail(s, id, email) then
      Step(Err(DuplicateEmail), s)
    else
      Step(Ok(newId), s.(users := s.users[newId := User(email, passwordHash, false, None)]))
  }

  /** `UPDATE users SET password`: an absent id matches no row. */
  function UpdatePassword(s: State, id: UserId, passwordHash: PasswordHash): (s': State)
    ensures s'.codes == s.codes
    ensures s'.users.Keys == s.users.Keys
    ensures id in s.users ==> s'.users[id] == s.users[id].(passwordHash := passwordHash)
    ensures forall other :: other in s.users && other != id ==> s'.users[other] == s.users[other]
  {
    if id in s.users then s.(users := s.users[id := s.users[id].(passwordHash := passwordHash)]) else s
  }

  /** `UPDATE users SET "isValidated" = true`: an absent id matches no row. */
  function SetValidated(s: State, id: UserId): (s': State)
    ensures s'.codes == s.codes
    ensures s'.users.Keys == s.users.Keys
    ensures id in s.users ==> s'.users[id] == s.users[id].(isValidated := true)
    ensures forall other :: other in s.users && other != id ==> s'.users[other] == s.users[other]
  {
    if id in s.users then s.(users := s.users[id := s.users[id].(isValidated := true)]) else s
  }

  /** The non-deleted user holding `email`, if any. */
  function GetUserByEmail(s: State, email: Email): (r: Option<UserId>)
    requires Valid(s)
    ensures r.Some? ==> ActiveWithEmail(s, r.value, email)
    ensures r.None? <==> forall id :: !ActiveWithEmail(s, id, email)
    ensures r.Some? ==> forall id :: ActiveWithEmail(s, id, email) ==> id == r.value
  {
    if exists id | id in s.users :: ActiveWithEmail(s, id, email) then
      var id :| id in s.users && ActiveWithEmail(s, id, email);
      Some(id)
    else
      None
  }

  /** The user with id `id`, unless it is absent or soft-deleted. */
  function GetUserById(s: State, id: UserId): (r: Option<User>)
    ensures r.Some? <==> id in s.users && s.users[id].Active()
    ensures r.Some? ==> r.value == s.users[id] && r.value.Active()
  {
    if id in s.users && s.users[id].Active() then Some(s.users[id]) else None
  }

  /** `INSERT INTO user_validation_code`: a newId code that expires 15 minutes from now. */
  function CreateCodeForUser(s: State, userId: UserId, now: Time, newId: CodeId): (s': State)
    requires newId !in s.codes
    ensures s'.users == s.users
    ensures s'.codes.Keys == s.codes.Keys + {newId}
    ensures s'.codes[newId].userId == userId && !s'.codes[newId].voided
    ensures s'.codes[newId].expiresAt == now + CodeLifetime
    ensures IsUsable(s', newId, now)
    ensures forall c :: c in s.codes ==> s'.codes[c] == s.codes[c]
  {
    s.(codes := s.codes[newId := Code(userId, false, now + CodeLifetime)])
  }

  /** `UPDATE user_validation_code SET voided`: changes that one flag of that one code. */
  function UpdateCode(s: State, id: CodeId, voided: bool): (s': State)
    ensures s'.users == s.users
    ensures s'.codes.Keys == s.codes.Keys
    ensures id in s.codes ==> s'.codes[id] == s.codes[id].(voided := voided)
    ensures forall other :: other in s.codes && other != id ==> s'.codes[other] == s.codes[other]
  {
    if id in s.codes then s.(codes := s.codes[id := s.codes[id].(voided := voided)]) else s
  }

  /** The code `id` if it is usable at `now`, and nothing otherwise. */
  function GetCode(s: State, id: CodeId, now: Time): (r: Option<Code>)
    ensures r.Some? <==> id in s.codes && !s.codes[id].voided && s.codes[id].expiresAt > now
    ensures r.Some? ==> r.value == s.codes[id]
  {
    if IsUsable(s, id, now) then Some(s.codes[id]) else None
  }

  /** The ids of all codes of `userId` that are usable at `now`. */
  function GetCodesForUser(s: State, userId: UserId, now: Time): (r: set<CodeId>)
    ensures forall c :: c in r <==> c in s.codes && s.codes[c].userId == userId && !s.codes[c].voided && s.codes[c].expiresAt > now
  {
    set c | c in s.codes && s.codes[c].userId == userId && IsUsable(s, c, now)
  }

  /** Sets the flag of every code in `ids` at once; the reference for voiding a batch. */
  function VoidAll(s: State, ids: set<CodeId>): (s': State)
    ensures s'.users == s.users
    ensures s'.codes.Keys == s.codes.Keys
    ensures forall c :: c in s.codes && c in ids ==> s'.codes[c] == s.codes[c].(voided := true)
    ensures forall c :: c in s.codes && c !in ids ==> s'.codes[c] == s.codes[c]
  {
    s.(codes := map c | c in s.codes :: if c in ids then s.codes[c].(voided := true) else s.codes[c])
  }
}

=== FILE: file_access.dfy ===
/**
 * The access decisions of the file routes. A file's metadata and its stored
 * object are two maps; the requester is the id from the verified token.
 */
module FileAccess {
  import opened Results
  import opened CredentialStore
  import opened Http

  type FileId = string

  /**
   * `isPublic` is the `public` column, which may be NULL: the upload handler
   * builds its file record without it.
   */
  datatype FileMeta = FileMeta(ownerId: UserId, isPublic: Option<bool>, contentType: string)

  /** Metadata rows and the objects in storage, both keyed by file id. */
  datatype Files = Files(meta: map<FileId, FileMeta>, objects: map<FileId, seq<Byte>>)

  const FileNotFound := "File not found"
  const Forbidden := "Forbidden"
  const NotInStorage := "File not found in storage"

  /**
   * The requester may read the file unless `public` is exactly `false` and the
   * requester is not the owner; the check is a strict `=== false`.
   */
  predicate MayRead(m: FileMeta, requester: UserId) {
    m.isPublic != Some(false) || m.ownerId == requester
  }

  /** GET a file: 404 without metadata, 403 for someone else's private file, 404 without an object, else the bytes. */
  function GetFile(files: Files, fileId: FileId, requester: UserId): (r: Response)
    ensures r.status == 403 <==> fileId in files.meta && files.meta[fileId].isPublic == Some(false) && files.meta[fileId].ownerId != requester
    ensures r.status == 403 ==> r.body == Error(Forbidden)
    ensures fileId !in files.meta ==> r == Response(404, Error(FileNotFound))
    ensures fileId in files.meta && MayRead(files.meta[fileId], requester) && fileId !in files.objects ==>
              r == Response(404, Error(NotInStorage))
    ensures r.status == 200 <==> fileId in files.meta && MayRead(files.meta[fileId], requester) && fileId in files.objects
    ensures r.status == 200 ==> r.body == FileStream(files.meta[fileId].contentType, files.objects[fileId])
    ensures r.status !in {200, 403} ==> r.status == 404
  {
    if fileId !in files.meta then
      Response(404, Error(FileNotFound))
    else
      var metadata := files.meta[fileId];
      if metadata.isPublic == Some(false) && metadata.ownerId != requester then
        Response(403, Error(Forbidden))
      else if fileId !in files.objects then
        Response(404, Error(NotInStorage))
      else
        Response(200, FileStream(metadata.contentType, files.objects[fileId]))
  }

  /**
   * DELETE a file: only its owner may, and everyone else gets the same 404 as
   * for a missing file, never 403. The owner's delete removes the object and
   * the metadata and answers 204.
   */
  function DeleteFile(files: Files, fileId: FileId, requester: UserId): (r: (Response, Files))
    ensures r.0.status == 204 <==> fileId in files.meta && files.meta[fileId].ownerId == requester
    ensures r.0.status == 204 ==> r.1 == Files(files.meta - {fileId}, files.objects - {fileId})
    ensures r.0.status != 204 ==> r.0 == Response(404, Error(FileNotFound)) && r.1 == files
  {
    if fileId !in files.meta || files.meta[fileId].ownerId != requester then
      (Response(404, Error(FileNotFound)), files)
    else
      (Response(204, NoBody), Files(files.meta - {fileId}, files.objects - {fileId}))
  }

  /** Nobody but the owner can read the bytes of a file whose `public` is `false`. */
  lemma PrivateFilesStayPrivate(files: Files, fileId: FileId, requester: UserId)
    requires fileId in files.meta && files.meta[fileId].isPublic == Some(false)
    requires GetFile(files, fileId, requester).body.FileStream?
    ensures requester == files.meta[fileId].ownerId
  {
  }

  /** A delete by someone other than the owner cannot tell an existing file from a missing one. */
  lemma DeleteHidesOthersFiles(files: Files, fileId: FileId, other: FileId, requester: UserId)
    requires fileId in files.meta && files.meta[fileId].ownerId != requester
    requires other !in files.meta
    ensures DeleteFile(files, fileId, requester).0 == DeleteFile(files, other, requester).0
  {
  }

  /** A file whose `public` is NULL is served to every requester, owner or not. */
  lemma UnsetVisibilityIsReadableByAll(files: Files, fileId: FileId, requester: UserId)
    requires fileId in files.meta && files.meta[fileId].isPublic.None?
    requires fileId in files.objects
    ensures GetFile(files, fileId, requester) == Response(200, FileStream(files.meta[fileId].contentType, files.objects[fileId]))
  {
  }
}

=== FILE: http.dfy ===
/** Responses the route handlers produce, reduced to a status and a body shape. */
module Http {
  import opened CredentialStore

  type Byte = bv8

  /** The claims a login token carries; signing and expiry are not modelled. */
  datatype Token = Token(id: UserId, email: Email)

  datatype Body =
    | NoBody
    | UserIdBody(userId: UserId)
    | TokenBody(token: Token)
    | Message(message: string)
    | Error(error: string)
    | JsonNumber(n: int)
    | FileStream(contentType: string, data: seq<Byte>)

  datatype Response = Response(status: int, body: Body)

  /** A response together with the store the handler leaves behind. */
  datatype Reply = Reply(response: Response, next: State)

  /** The messages the authentication handlers of both revisions answer with. */
  const CannotCreateUser := "Cannot create user"
  const InvalidCodeMessage := "Invalid code"
  const FailedToValidate := "Failed to validate user"
  const ResetCodeSent := "Email sent with validation code"
  const FailedToCreateResetCode := "Failed to create reset code"
  const PasswordResetDone := "Password reset successfully"
  const FailedToResetPassword := "Failed to reset password"
  const InvalidCredentials := "Invalid email or password"

  /** `c.json(value)` without a status argument: the value becomes the body and the status stays 200. */
  function JsonWithoutStatus(n: int): Response
  {
    Response(200, JsonNumber(n))
  }
}

=== FILE: legacy_repository.dfy ===
/**
 * The older revision of the authentication repository. Its code table carries
 * an `expired` flag where the current one carries `voided`; both are the
 * `voided` field of `Code` here. Each call is one atomic step.
 */
module LegacyRepository {
  import opened Results
  import opened CredentialStore

  /**
   * How the older revision issues code `code` for `userId`: every code of that
   * user whose flag is still clear gets flagged, whether or not its time has
   * run out, the new code is added, and nothing else changes.
   */
  ghost predicate AllFlagged(s: State, s': State, userId: UserId, now: Time, code: CodeId)
  {
    && s'.users == s.users
    && s'.codes.Keys == s.codes.Keys + {code}
    && s'.codes[code] == Code(userId, false, now + CodeLifetime)
    && (forall c :: c in s.codes && s.codes[c].userId == userId ==> s'.codes[c] == s.codes[c].(voided := true))
    && (forall c :: c in s.codes && s.codes[c].userId != userId ==> s'.codes[c] == s.codes[c])
  }

  /** The ids of the codes of `userId` whose flag is clear: the rows the bulk `UPDATE` matches. */
  function UnexpiredCodes(s: State, userId: UserId): (r: set<CodeId>)
    ensures forall c :: c in r <==> c in s.codes && s.codes[c].userId == userId && !s.codes[c].voided
  {
    set c | c in s.codes && s.codes[c].userId == userId && !s.codes[c].voided
  }

  /** Flags every unexpired code of the user, then inserts a code good for 15 minutes. */
  function CreateCodeForUser(s: State, email: Email, now: Time, newId: CodeId): (r: Step<CodeId>)
    requires Valid(s)
    requires newId !in s.codes
    ensures r.out.Err? <==> forall id :: !ActiveWithEmail(s, id, email)
    ensures r.out.Err? ==> r.out.error == UserNotFound && r.next == s
    ensures r.out.Ok? ==> r.out.value == newId && IsUsable(r.next, newId, now)
    ensures forall id :: ActiveWithEmail(s, id, email) ==> AllFlagged(s, r.next, id, now, newId)
    ensures r.out.Ok? ==> forall c :: IsUsable(r.next, c, now) && r.next.codes[c].userId == r.next.codes[newId].userId ==> c == newId
    ensures Valid(r.next)
  {
    match GetUserByEmail(s, email)
    case None => Step(Err(UserNotFound), s)
    case Some(userId) =>
      var expired := VoidAll(s, UnexpiredCodes(s, userId));
      Step(Ok(newId), CredentialStore.CreateCodeForUser(expired, userId, now, newId))
  }

  /** Marks a usable code expired, then stores `newPasswordHash` for its non-deleted owner. */
  function ResetPassword(s: State, code: CodeId, newPasswordHash: PasswordHash, now: Time): (r: Step<()>)
    ensures r.out == Err(InvalidCode) <==> !IsUsable(s, code, now)
    ensures !IsUsable(s, code, now) ==> r.next == s
    ensures IsUsable(s, code, now) ==> r.next.codes == s.codes[code := s.codes[code].(voided := true)]
    ensures IsUsable(s, code, now) ==>
              var owner := s.codes[code].userId;
              (r.out.Ok? <==> owner in s.users && s.users[owner].Active())
              && (r.out.Ok? ==> r.next.users == s.users[owner := s.users[owner].(passwordHash := newPasswordHash)])
    ensures IsUsable(s, code, now) && !(s.codes[code].userId in s.users && s.users[s.codes[code].userId].Active()) ==>
              r.out == Err(UserNotFound) && r.next.users == s.users
    ensures r.out == Err(UserNotFound) ==> r.next.users == s.users
  {
    if !IsUsable(s, code, now) then
      Step(Err(InvalidCode), s)
    else
      var owner := s.codes[code].userId;
      var expired := UpdateCode(s, code, true);
      if owner in expired.users && expired.users[owner].Active() then
        Step(Ok(()), UpdatePassword(expired, owner, newPasswordHash))
      else
        Step(Err(UserNotFound), expired)
  }

  /** The stored hash of the non-deleted user holding `email`. */
  function PasswordForUser(s: State, email: Email): (r: Result<PasswordHash, AuthError>)
    requires Valid(s)
    ensures r.Ok? <==> exists id :: ActiveWithEmail(s, id, email)
    ensures forall id :: ActiveWithEmail(s, id, email) ==> r == Ok(s.users[id].passwordHash)
    ensures r.Err? ==> r.error == UserNotFound
  {
    match GetUserByEmail(s, email)
    case None => Err(UserNotFound)
    case Some(id) => Ok(s.users[id].passwordHash)
  }

  /**
   * Marks the owner of a usable code as validated. The code is left usable,
   * and the update does not filter out soft-deleted owners.
   */
  function ValidateUser(s: State, code: CodeId, now: Time): (r: Step<()>)
    ensures r.out.Err? <==> !IsUsable(s, code, now)
    ensures r.out.Err? ==> r.out.error == InvalidCode && r.next == s
    ensures r.next.codes == s.codes
    ensures IsUsable(s, code, now) ==>
              var owner := s.codes[code].userId;
              r.next.users.Keys == s.users.Keys
              && (owner in s.users ==> r.next.users == s.users[owner := s.users[owner].(isValidated := true)])
              && (owner !in s.users ==> r.next.users == s.users)
    ensures Valid(s) ==> Valid(r.next)
  {
    if !IsUsable(s, code, now) then
      Step(Err(InvalidCode), s)
    else
      Step(Ok(()), SetValidated(s, s.codes[code].userId))
  }

  /** The non-deleted user holding `email`. */
  function GetUser(s: State, email: Email): (r: Result<UserId, AuthError>)
    requires Valid(s)
    ensures r.Ok? ==> ActiveWithEmail(s, r.value, email)
    ensures r.Err? <==> forall id :: !ActiveWithEmail(s, id, email)
    ensures r.Err? ==> r.error == UserNotFound
  {
    match GetUserByEmail(s, email)
    case None => Err(UserNotFound)
    case Some(id) => Ok(id)
  }
}

=== FILE: legacy_routes.dfy ===
/**
 * The five handlers of the older authentication routes, on top of the older
 * repository. Two success answers are written `c.json(201)` and `c.json(204)`:
 * a bare number passed to `c.json` becomes the JSON body and the status stays
 * 200. `RegisterAsWritten` and `ValidateAsWritten` model that; `Register` and
 * `Validate` answer the status the handlers evidently mean.
 */
module LegacyRoutes {
  import opened Results
  import opened CredentialStore
  import opened Http
  import LegacyRepository

  /** Create the user, then issue a validation code for the e-mail; the user id is dropped. */
  function SignUp(s: State, email: Email, passwordHash: PasswordHash, now: Time, newUser: UserId, newCode: CodeId): (r: Step<()>)
    requires Valid(s)
    requires newUser !in s.users
    requires newCode !in s.codes
    ensures r.out.Ok? <==> forall id :: !ActiveWithEmail(s, id, email)
    ensures r.out.Ok? ==>
              && r.next.users == s.users[newUser := User(email, passwordHash, false, None)]
              && IsUsable(r.next, newCode, now) && r.next.codes[newCode].userId == newUser
    ensures r.out.Ok? ==> r.next.codes == s.codes[newCode := Code(newUser, false, now + CodeLifetime)]
    ensures r.out.Err? ==> r.next == s
    ensures Valid(r.next)
  {
    var created := CredentialStore.CreateUser(s, email, passwordHash, newUser);
    if created.out.Err? then
      Step(Err(created.out.error), created.next)
    else
      var issued := LegacyRepository.CreateCodeForUser(created.next, email, now, newCode);
      assert ActiveWithEmail(created.next, newUser, email);
      IssueKeepsOtherCodes(created.next, issued.next, newUser, now, newCode);
      if issued.out.Ok? then Step(Ok(()), issued.next)
      else Step(Err(UserNotFound), issued.next)
  }

  /**
   * Issuing a code to a user who owns no code yet flags nothing: the only
   * change to the codes is the new one.
   */
  lemma IssueKeepsOtherCodes(s: State, s': State, userId: UserId, now: Time, code: CodeId)
    requires forall c :: c in s.codes ==> s.codes[c].userId != userId
    requires LegacyRepository.AllFlagged(s, s', userId, now, code)
    ensures s'.codes == s.codes[code := s'.codes[code]]
  {
  }

  /** Sign up as written: success answers `c.json(201)`, any failure 409. */
  function RegisterAsWritten(s: State, email: Email, passwordHash: PasswordHash, now: Time, newUser: UserId, newCode: CodeId): (r: Reply)
    requires Valid(s)
    requires newUser !in s.users
    requires newCode !in s.codes
    ensures r.next == SignUp(s, email, passwordHash, now, newUser, newCode).next
    ensures r.response.status == 200 <==> forall id :: !ActiveWithEmail(s, id, email)
    ensures r.response.status != 200 ==> r.response == Response(409, Error(CannotCreateUser))
  {
    var signedUp := SignUp(s, email, passwordHash, now, newUser, newCode);
    if signedUp.out.Ok? then Reply(JsonWithoutStatus(201), signedUp.next)
    else Reply(Response(409, Error(CannotCreateUser)), signedUp.next)
  }

  /** A successful sign-up in the older routes never answers 201. */
  lemma RegisterSuccessIsNot201(s: State, email: Email, passwordHash: PasswordHash, now: Time, newUser: UserId, newCode: CodeId)
    requires Valid(s)
    requires newUser !in s.users
    requires newCode !in s.codes
    requires forall id :: !ActiveWithEmail(s, id, email)
    ensures RegisterAsWritten(s, email, passwordHash, now, newUser, newCode).response == Response(200, JsonNumber(201))
  {
  }

  /** Sign up as evidently intended: 201 on success, 409 on any failure, including a duplicate e-mail. */
  function Register(s: State, email: Email, passwordHash: PasswordHash, now: Time, newUser: UserId, newCode: CodeId): (r: Reply)
    requires Valid(s)
    requires newUser !in s.users
    requires newCode !in s.codes
    ensures r.response.status == 201 <==> forall id :: !ActiveWithEmail(s, id, email)
    ensures r.response.status == 201 ==>
              && r.response.body == NoBody
              && r.next.users == s.users[newUser := User(email, passwordHash, false, None)]
              && IsUsable(r.next, newCode, now) && r.next.codes[newCode].userId == newUser
              && r.next.codes == s.codes[newCode := Code(newUser, false, now + CodeLifetime)]
    ensures r.response.status != 201 ==> r.response == Response(409, Error(CannotCreateUser)) && r.next == s
    ensures Valid(r.next)
  {
    var signedUp := SignUp(s, email, passwordHash, now, newUser, newCode);
    if signedUp.out.Ok? then Reply(Response(201, NoBody), signedUp.next)
    else Reply(Response(409, Error(CannotCreateUser)), signedUp.next)
  }

  /** Error mapping shared by both validate answers: 401 for a bad code, 500 for anything else. */
  function ValidateFailure(e: AuthError): (r: Response)
    ensures r.status == 401 <==> e == InvalidCode
    ensures r.status != 401 ==> r == Response(500, Error(FailedToValidate))
    ensures r.status == 401 ==> r.body == Error(InvalidCodeMessage)
  {
    if e == InvalidCode then Response(401, Error(InvalidCodeMessage)) else Response(500, Error(FailedToValidate))
  }

  /** Validate as written: success answers `c.json(204)`. */
  function ValidateAsWritten(s: State, code: CodeId, now: Time): (r: Reply)
    ensures r.next == LegacyRepository.ValidateUser(s, code, now).next
    ensures r.response.status == 200 <==> IsUsable(s, code, now)
    ensures r.response.status != 200 ==> r.response == Response(401, Error(InvalidCodeMessage)) && r.next == s
  {
    var validated := LegacyRepository.ValidateUser(s, code, now);
    match validated.out
    case Ok(_) => Reply(JsonWithoutStatus(204), validated.next)
    case Err(e) => Reply(ValidateFailure(e), validated.next)
  }

  /** A successful validation in the older routes answers 200 with the number 204 as its body. */
  lemma ValidateSuccessIsNot204(s: State, code: CodeId, now: Time)
    requires IsUsable(s, code, now)
    ensures ValidateAsWritten(s, code, now).response == Response(200, JsonNumber(204))
  {
  }

  /**
   * Validate as evidently intended: 204 with no body on success, 401 for a
   * bad code. The code is not consumed, so the same code keeps answering 204.
   */
  function Validate(s: State, code: CodeId, now: Time): (r: Reply)
    ensures r.next == LegacyRepository.ValidateUser(s, code, now).next
    ensures r.response.status == 204 <==> IsUsable(s, code, now)
    ensures r.response.status == 204 ==> r.response.body == NoBody && r.next.codes == s.codes
    ensures r.response.status != 204 ==> r.response == Response(401, Error(InvalidCodeMessage)) && r.next == s
  {
    var validated := LegacyRepository.ValidateUser(s, code, now);
    match validated.out
    case Ok(_) => Reply(Response(204, NoBody), validated.next)
    case Err(e) => Reply(ValidateFailure(e), validated.next)
  }

  /** Forgot password: 202 once a reset code is issued, 400 for any failure, including an unknown e-mail. */
  function ForgotPassword(s: State, email: Email, now: Time, newCode: CodeId): (r: Reply)
    requires Valid(s)
    requires newCode !in s.codes
    ensures r.response.status == 202 <==> exists id :: ActiveWithEmail(s, id, email)
    ensures r.response.status == 202 ==>
              r.response.body == Message(ResetCodeSent) && r.next == LegacyRepository.CreateCodeForUser(s, email, now, newCode).next
    ensures r.response.status != 202 ==> r.response == Response(400, Error(FailedToCreateResetCode)) && r.next == s
  {
    var issued := LegacyRepository.CreateCodeForUser(s, email, now, newCode);
    if issued.out.Ok? then Reply(Response(202, Message(ResetCodeSent)), issued.next)
    else Reply(Response(400, Error(FailedToCreateResetCode)), issued.next)
  }

  /** Reset password: 200 when the code is consumed and the hash stored, 400 for any failure. */
  function ResetPassword(s: State, code: CodeId, passwordHash: PasswordHash, now: Time): (r: Reply)
    ensures r.next == LegacyRepository.ResetPassword(s, code, passwordHash, now).next
    ensures r.response.status == 200 <==>
              IsUsable(s, code, now) && s.codes[code].userId in s.users && s.users[s.codes[code].userId].Active()
    ensures r.response.status == 200 ==> r.response.body == Message(PasswordResetDone)
    ensures r.response.status != 200 ==> r.response == Response(400, Error(FailedToResetPassword))
  {
    var reset := LegacyRepository.ResetPassword(s, code, passwordHash, now);
    if reset.out.Ok? then Reply(Response(200, Message(PasswordResetDone)), reset.next)
    else Reply(Response(400, Error(FailedToResetPassword)), reset.next)
  }

  /**
   * Log in with the hash read in the same query as the user: a token when it
   * verifies, and one uniform 401 for an unknown e-mail or a wrong password.
   */
  function Login(s: State, email: Email, password: string, verify: (string, PasswordHash) -> bool): (r: Response)
    requires Valid(s)
    ensures r.status == 200 <==> exists id :: ActiveWithEmail(s, id, email) && verify(password, s.users[id].passwordHash)
    ensures r.status == 200 ==> forall id :: ActiveWithEmail(s, id, email) ==> r.body == TokenBody(Token(id, email))
    ensures r.status != 200 ==> r == Response(401, Error(InvalidCredentials))
  {
    match LegacyRepository.GetUser(s, email)
    case Err(_) => Response(401, Error(InvalidCredentials))
    case Ok(id) =>
      var authUser := s.users[id];
      if verify(password, authUser.passwordHash) then Response(200, TokenBody(Token(id, authUser.email)))
      else Response(401, Error(InvalidCredentials))
  }
}

=== FILE: lifecycle.dfy ===
/**
 * The current repository as a state machine: every call that changes the
 * store is an event. Its invariants (e-mails unique among live users,
 * validation never reverts, a voided code stays voided) are proved to hold
 * after any admissible sequence of events, and a run in time order that
 * starts with at most one usable code per user ends with at most one usable
 * code per user.
 */
module Lifecycle {
  import opened CredentialStore
  import AuthRepository

  /** A repository call that writes to the store. */
  datatype Op =
    | CreateUser(email: Email, passwordHash: PasswordHash, newUser: UserId)
    | CreateCode(email: Email, newCode: CodeId)
    | Validate(code: CodeId)
    | ResetPassword(code: CodeId, newPasswordHash: PasswordHash)

  /** A call and the time at which it runs. */
  datatype Event = Event(op: Op, at: Time)

  /** The id the database generates for an insert is not already taken. */
  predicate FreshFor(s: State, op: Op) {
    match op
    case CreateUser(_, _, newUser) => newUser !in s.users
    case CreateCode(_, newCode) => newCode !in s.codes
    case _ => true
  }

  function Apply(s: State, e: Event): (s': State)
    requires Valid(s)
    requires FreshFor(s, e.op)
    ensures Valid(s')
  {
    match e.op
    case CreateUser(email, passwordHash, newUser) => CredentialStore.CreateUser(s, email, passwordHash, newUser).next
    case CreateCode(email, newCode) => AuthRepository.CreateCodeForUser(s, email, e.at, newCode).next
    case Validate(code) => AuthRepository.ValidateUser(s, code, e.at).next
    case ResetPassword(code, newPasswordHash) => AuthRepository.ResetPassword(s, code, newPasswordHash, e.at).next
  }

  /** Every insert in `events` gets an id that is fresh when it runs. */
  ghost predicate Admissible(s: State, events: seq<Event>)
    requires Valid(s)
    decreases |events|
  {
    |events| == 0 || (FreshFor(s, events[0].op) && Admissible(Apply(s, events[0]), events[1..]))
  }

  /** The events run no earlier than `start` and in order of time. */
  ghost predicate Chronological(start: Time, events: seq<Event>) {
    && (forall i :: 0 <= i < |events| ==> start <= events[i].at)
    && (forall i, j :: 0 <= i < j < |events| ==> events[i].at <= events[j].at)
  }

  function LastTime(start: Time, events: seq<Event>): Time {
    if |events| == 0 then start else events[|events| - 1].at
  }

  /** The store after running `events` one after another; the e-mail index stays valid. */
  function Run(s: State, events: seq<Event>): (s': State)
    requires Valid(s)
    requires Admissible(s, events)
    ensures Valid(s')
    decreases |events|
  {
    if |events| == 0 then s else Run(Apply(s, events[0]), events[1..])
  }

  /** No event turns a validated user back into an unvalidated one, or removes a user. */
  lemma ApplyKeepsValidated(s: State, e: Event)
    requires Valid(s)
    requires FreshFor(s, e.op)
    ensures forall id :: id in s.users && s.users[id].isValidated ==> id in Apply(s, e).users && Apply(s, e).users[id].isValidated
  {
    match e.op
    case CreateUser(email, passwordHash, newUser) =>
      var r := CredentialStore.CreateUser(s, email, passwordHash, newUser);
      assert r.out.Ok? ==> forall id :: id in s.users ==> r.next.users[id] == s.users[id];
    case CreateCode(email, newCode) =>
      assert Apply(s, e).users == s.users;
    case Validate(code) =>
      var r := AuthRepository.ValidateUser(s, code, e.at);
      assert r.out.Err? ==> r.next.users == s.users;
    case ResetPassword(code, newPasswordHash) =>
      var r := AuthRepository.ResetPassword(s, code, newPasswordHash, e.at);
      assert r.out.Err? ==> r.next.users == s.users;
  }

  /** `s'` keeps every code of `s`, with the same owner and expiry, and a voided code stays voided. */
  ghost predicate CodesKept(s: State, s': State) {
    forall c :: c in s.codes ==>
      && c in s'.codes
      && s'.codes[c].userId == s.codes[c].userId
      && s'.codes[c].expiresAt == s.codes[c].expiresAt
      && (s.codes[c].voided ==> s'.codes[c].voided)
  }

  /** Issuing a code keeps every existing code, voiding some of them. */
  lemma CreateCodeKeepsCodes(s: State, email: Email, now: Time, newCode: CodeId)
    requires Valid(s)
    requires newCode !in s.codes
    ensures CodesKept(s, AuthRepository.CreateCodeForUser(s, email, now, newCode).next)
  {
    var r := AuthRepository.CreateCodeForUser(s, email, now, newCode);
    if r.out.Ok? {
      var id :| ActiveWithEmail(s, id, email);
      assert AuthRepository.Superseded(s, r.next, id, now, newCode);
    }
  }

  /** Validating a user keeps every code, voiding at most the one presented. */
  lemma ValidateKeepsCodes(s: State, code: CodeId, now: Time)
    ensures CodesKept(s, AuthRepository.ValidateUser(s, code, now).next)
  {
    var r := AuthRepository.ValidateUser(s, code, now);
    if IsUsable(s, code, now) {
      assert r.next.codes == s.codes[code := s.codes[code].(voided := true)];
    }
  }

  /** Resetting a password keeps every code, voiding at most the one presented. */
  lemma ResetPasswordKeepsCodes(s: State, code: CodeId, newPasswordHash: PasswordHash, now: Time)
    ensures CodesKept(s, AuthRepository.ResetPassword(s, code, newPasswordHash, now).next)
  {
    var r := AuthRepository.ResetPassword(s, code, newPasswordHash, now);
    if IsUsable(s, code, now) {
      assert r.next.codes == s.codes[code := s.codes[code].(voided := true)];
    }
  }

  /** No event clears the flag of a voided code, or removes, reassigns or extends a code. */
  lemma ApplyKeepsVoided(s: State, e: Event)
    requires Valid(s)
    requires FreshFor(s, e.op)
    ensures CodesKept(s, Apply(s, e))
  {
    var s' := Apply(s, e);
    match e.op
    case CreateUser(email, passwordHash, newUser) =>
      assert s'.codes == s.codes;
    case CreateCode(email, newCode) =>
      CreateCodeKeepsCodes(s, email, e.at, newCode);
    case Validate(code) =>
      ValidateKeepsCodes(s, code, e.at);
    case ResetPassword(code, newPasswordHash) =>
      ResetPasswordKeepsCodes(s, code, newPasswordHash, e.at);
  }

  /** If each user had at most one usable code before the event, the same holds after it, at its time. */
  lemma ApplyKeepsSingleActive(s: State, now: Time, e: Event)
    requires Valid(s)
    requires FreshFor(s, e.op)
    requires now <= e.at
    requires SingleActive(s, now)
    ensures SingleActive(Apply(s, e), e.at)
  {
    var s' := Apply(s, e);
    ApplyKeepsVoided(s, e);
    forall a, b | IsUsable(s', a, e.at) && IsUsable(s', b, e.at) && s'.codes[a].userId == s'.codes[b].userId
      ensures a == b
    {
      match e.op
      case CreateCode(email, newCode) =>
        if a != newCode && b != newCode {
          assert IsUsable(s, a, now) && IsUsable(s, b, now);
        }
      case CreateUser(_, _, _) =>
        assert IsUsable(s, a, now) && IsUsable(s, b, now);
      case Validate(_) =>
        assert IsUsable(s, a, now) && IsUsable(s, b, now);
      case ResetPassword(_, _) =>
        assert IsUsable(s, a, now) && IsUsable(s, b, now);
    }
  }

  /** Validation is monotonic over any run: once validated, always validated. */
  lemma {:induction false} RunKeepsValidated(s: State, events: seq<Event>)
    requires Valid(s)
    requires Admissible(s, events)
    ensures forall id :: id in s.users && s.users[id].isValidated ==> id in Run(s, events).users && Run(s, events).users[id].isValidated
    decreases |events|
  {
    if |events| > 0 {
      ApplyKeepsValidated(s, events[0]);
      RunKeepsValidated(Apply(s, events[0]), events[1..]);
    }
  }

  /** A code that was used up or superseded can never be presented again, in any run. */
  lemma {:induction false} RunKeepsVoided(s: State, events: seq<Event>)
    requires Valid(s)
    requires Admissible(s, events)
    ensures forall c :: c in s.codes && s.codes[c].voided ==> c in Run(s, events).codes && Run(s, events).codes[c].voided
    decreases |events|
  {
    if |events| > 0 {
      ApplyKeepsVoided(s, events[0]);
      RunKeepsVoided(Apply(s, events[0]), events[1..]);
    }
  }

  /** At most one usable code per user, after any chronological run that starts in such a store. */
  lemma {:induction false} RunKeepsSingleActive(s: State, start: Time, events: seq<Event>)
    requires Valid(s)
    requires Admissible(s, events)
    requires Chronological(start, events)
    requires SingleActive(s, start)
    ensures SingleActive(Run(s, events), LastTime(start, events))
    decreases |events|
  {
    if |events| > 0 {
      ApplyKeepsSingleActive(s, start, events[0]);
      var rest := events[1..];
      assert Chronological(events[0].at, rest) by {
        forall i | 0 <= i < |rest| ensures events[0].at <= rest[i].at {
          assert rest[i] == events[i + 1];
        }
        forall i, j | 0 <= i < j < |rest| ensures rest[i].at <= rest[j].at {
          assert rest[i] == events[i + 1] && rest[j] == events[j + 1];
        }
      }
      RunKeepsSingleActive(Apply(s, events[0]), events[0].at, rest);
      if |rest| > 0 {
        assert rest[|rest| - 1] == events[|events| - 1];
      }
    }
  }
}

=== FILE: results.dfy ===
/** Failure-carrying values shared by the store, the repositories and the routes. */
module Results {

  /** A row that a query may or may not return (the source's `T | null`). */
  datatype Option<+T> = None | Some(value: T)

  /** A promise that resolves with a value or rejects with an error. */
  datatype Result<+T, +E> = Ok(value: T) | Err(error: E)
}

=== FILE: revisions.dfy ===
/**
 * How the older repository revision differs from the current one, stated on
 * the same store.
 */
module Revisions {
  import opened Results
  import opened CredentialStore
  import Current = AuthRepository
  import Legacy = LegacyRepository

  /**
   * Both revisions answer the same and leave the same codes usable, at the
   * moment of issue and at any later time, although the older one also flags
   * codes whose time had already run out.
   */
  lemma IssueAgreesOnUsability(s: State, email: Email, now: Time, newId: CodeId, later: Time)
    requires Valid(s)
    requires newId !in s.codes
    requires now <= later
    ensures
      var current := Current.CreateCodeForUser(s, email, now, newId);
      var legacy := Legacy.CreateCodeForUser(s, email, now, newId);
      && current.out == legacy.out
      && current.next.users == legacy.next.users
      && current.next.codes.Keys == legacy.next.codes.Keys
      && forall c :: IsUsable(current.next, c, later) <==> IsUsable(legacy.next, c, later)
  {
    var current := Current.CreateCodeForUser(s, email, now, newId);
    var legacy := Legacy.CreateCodeForUser(s, email, now, newId);
    match GetUserByEmail(s, email)
    case None =>
    case Some(userId) =>
      assert Current.Superseded(s, current.next, userId, now, newId);
      assert Legacy.AllFlagged(s, legacy.next, userId, now, newId);
      forall c | c in current.next.codes
        ensures IsUsable(current.next, c, later) <==> IsUsable(legacy.next, c, later)
      {
        if c != newId && s.codes[c].userId == userId && !s.codes[c].UsableAt(now) {
          assert !s.codes[c].UsableAt(later);
        }
      }
  }

  /** The flags themselves can differ: a lapsed code keeps a clear flag only in the current revision. */
  lemma IssueFlagsLapsedCodesOnlyInLegacy()
    ensures
      var s := State(map["u" := User("a@b", "h", false, None)], map["old" := Code("u", false, 10)]);
      && Current.CreateCodeForUser(s, "a@b", 20, "new").next.codes["old"].voided == false
      && Legacy.CreateCodeForUser(s, "a@b", 20, "new").next.codes["old"].voided == true
  {

  }

  /** Resetting a password behaves identically in both revisions. */
  lemma ResetPasswordAgrees(s: State, code: CodeId, newPasswordHash: PasswordHash, now: Time)
    ensures Current.ResetPassword(s, code, newPasswordHash, now) == Legacy.ResetPassword(s, code, newPasswordHash, now)
  {

  }

  /**
   * For a usable code of a non-deleted owner both revisions validate the same
   * user, but only the current one consumes the code.
   */
  lemma ValidateConsumesOnlyInCurrent(s: State, code: CodeId, now: Time, later: Time)
    requires IsUsable(s, code, now)
    requires s.codes[code].userId in s.users && s.users[s.codes[code].userId].Active()
    ensures
      var current := Current.ValidateUser(s, code, now);
      var legacy := Legacy.ValidateUser(s, code, now);
      && current.out == legacy.out == Ok(())
      && current.next.users == legacy.next.users
      && !IsUsable(current.next, code, later)
      && IsUsable(legacy.next, code, now)
  {
  }

  /**
   * Presenting the same code twice: the current revision refuses the second
   * attempt, the older one accepts it and changes nothing more.
   */
  lemma RepeatedValidate(s: State, code: CodeId, now: Time, later: Time)
    requires now <= later
    requires IsUsable(s, code, later)
    ensures
      var first := Current.ValidateUser(s, code, now);
      first.out.Ok? ==> Current.ValidateUser(first.next, code, later) == Step(Err(InvalidCode), first.next)
    ensures
      var first := Legacy.ValidateUser(s, code, now);
      var second := Legacy.ValidateUser(first.next, code, later);
      first.out == second.out == Ok(()) && second.next == first.next
  {

  }

  /**
   * A code whose owner was soft-deleted: the current revision consumes it and
   * reports `UserNotFound`; the older one marks the deleted user validated.
   */
  lemma ValidateDeletedOwner(s: State, code: CodeId, now: Time)
    requires IsUsable(s, code, now)
    requires s.codes[code].userId in s.users && !s.users[s.codes[code].userId].Active()
    ensures
      var current := Current.ValidateUser(s, code, now);
      current.out == Err(UserNotFound) && current.next.users == s.users && !IsUsable(current.next, code, now)
    ensures
      var legacy := Legacy.ValidateUser(s, code, now);
      legacy.out == Ok(()) && legacy.next.users[s.codes[code].userId].isValidated
  {
  }

  /**
   * The current revision looks the hash up by user id after `getUser`; the
   * older one by e-mail. For every e-mail they find the same hash or both fail.
   */
  lemma PasswordLookupsAgree(s: State, email: Email)
    requires Valid(s)
    ensures Current.GetUser(s, email) == Legacy.GetUser(s, email)
    ensures
      match Current.GetUser(s, email)
      case Ok(id) => Current.PasswordForUser(s, id) == Legacy.PasswordForUser(s, email)
      case Err(_) => Legacy.PasswordForUser(s, email) == Err(UserNotFound)
  {
  }
}
